=== FILE: README.md ===
# Structural schema checks for annotated functions

This project models `runtime/schema.py`, a small validator that checks a function's
arguments and result against annotations written as nested Python literals. For example,
`def f(x: {"id": int, "tags": [str]}) -> {"ok": bool}` is checked against
`{"id": int, "tags": [str]}`.

It has three parts:

- The matcher `_format_asserts(form, data)`. It gets the pairs of the schema
  `form` and checks them one by one against `data`. The first statement that
  raises ends the match. On success it returns `data` itself. Each pair follows
  one of four rules: missing key, dict field, list field, or plain
  `isinstance`.
- `_validate_schema(f, name, arg)`. It looks up the annotation for `name` and
  skips it when that is missing or `None`.
- The `schema` decorator's wrapper. It checks positional arguments by
  local-variable name, then keyword arguments, then runs the function, then
  checks the result under `'return'`.

Both schemas and data are Python objects, so one datatype `PyObjects.Obj` covers
them. It has `None`, `bool`, `int`, `str`, `list`, `tuple`, `dict` (insertion-ordered
string keys) and the built-in type objects. The Python built-ins the matcher relies on
(`isinstance`, `in`, `x[k]`, `a, b = x`, `==`) live in `Builtins`. Each one keeps
CPython's exceptions distinct, because the missing-key rule catches only
`TypeError`.

The matcher takes a `Matcher.ListRule` argument, which only matters in the list
branch:

- `SchemaItems` is the code as written.
- `DataItems` is the corrected loop (see Findings).

The wrapper uses the code as written.

Two consequences of the code as written are part of the model:

- The `dict` type object's unbound `items` raises `TypeError` when called, so an
  annotation of plain `dict` raises `TypeError`. Other plain type annotations,
  such as `int`, are ignored, as the module documentation describes.
- An iterable schema that is not a mapping is unpacked item by item. So a
  top-level `[int]` or a non-empty string raises.
- A list field whose first element is itself a schema, such as
  `{"items": [{"id": int}]}`, raises `TypeError` from
  `isinstance({"id": int}, {"id": int})` whatever the data's list holds, as long
  as the schema's list is non-empty.

Modules:

- `pyobjects.dfy`: objects, exceptions, results and a size measure.
- `builtins.dfy`: the built-ins.
- `matcher.dfy`: `_format_asserts`.
- `matcher_properties.dfy` and `matcher_examples.dfy`: what the matcher
  guarantees, and worked cases.
- `interceptor.dfy`: `_validate_schema` and the wrapper.
- `interceptor_properties.dfy`: what the wrapper guarantees.

## Model

| member | source | states |
|---|---|---|
| PyObjects.Assert | runtime/schema.py:53 | an `assert` statement passes exactly when its condition evaluates to true; an exception raised while evaluating it propagates, and a false condition raises `AssertionError` |
| Builtins.IsInstance | runtime/schema.py:53 | `isinstance` with a type object answers by subclassing (`bool` under `int`, everything under `object`); any classinfo that is neither a type nor a tuple raises `TypeError`, and only `TypeError` is ever raised |
| Builtins.IsInstanceOfAny | runtime/schema.py:53 | a tuple classinfo answers false exactly when every member answers false; otherwise the answer is that of the first member that does not answer false (true, or its `TypeError`), and later members are not consulted |
| Builtins.TupleOfTypesIsUnion | runtime/schema.py:53 | a tuple of type objects as classinfo never raises and accepts exactly the instances of one of its members |
| Builtins.Contains | runtime/schema.py:51 | `key in data` raises (always `TypeError`) exactly when data is not iterable, is a dict and the key is unhashable, or is a string and the key is not a string; otherwise a dict answers whether it has the key, a list or tuple whether some element equals the key (`==`), and a string whether the key is a substring |
| Builtins.KeyIndex | runtime/schema.py:51 | a dict lookup finds the first entry with the key, or reports none when no entry has it |
| Builtins.Subscript | runtime/schema.py:57-65 | `data[key]` raises `TypeError` on a non-container and otherwise raises only `TypeError`, `KeyError` or `IndexError`; a string, list or tuple indexed by anything but an integer raises `TypeError`; an integer index `i` reads element `i` of a list or tuple (counting from the end when negative, `IndexError` out of range) and the one-character string `s[i]` of a string; a value read from a list, tuple or dict is one of its elements or entry values |
| Builtins.ContainsAgreesWithSubscript | runtime/schema.py:51-65 | for dict data, `key in data` is true exactly when `data[key]` can be read and yields that key's value; an absent string key raises `KeyError` |
| Builtins.Unpack | runtime/schema.py:50 | `key, value = item` succeeds exactly for iterables of length two, binding the first and second element (a string's characters, a dict's keys); otherwise it raises `ValueError` for iterables and `TypeError` for anything else; the two parts are strictly smaller than the item |
| Matcher.FormItems | runtime/schema.py:40-47 | only the `dict` type object fails to yield items (`TypeError`); a non-iterable schema yields no items; a list or tuple yields its own elements and a string its one-character strings; a dict's items unpack to its `(key, value)` entries in order |
| Matcher.MissingKey | runtime/schema.py:51-55 | an absent key passes exactly when `None` is an instance of the field schema or the schema is `None` itself (the retry with the schema's own type succeeds only then); every failure is an `AssertionError` |
| Matcher.ElementClass | runtime/schema.py:62 | `form[key][0]` propagates the failure of `form[key]`; when `form[key]` is a list it succeeds exactly when that list is non-empty, giving its first element |
| Matcher.ListElements | runtime/schema.py:61-62 | the element loop passes on an empty list without looking up the class, fails with the lookup's exception when `form[key][0]` cannot be read, and otherwise fails only with `AssertionError` or `TypeError`; on a non-empty list whose class is neither a type object nor a tuple (a nested schema such as `[{"id": int}]`) it fails with `TypeError` |
| Matcher.CheckField | runtime/schema.py:51-65 | a `key in data` that raises gives `TypeError`; an absent key follows the missing-key rule, passing exactly when `None` is an instance of the field schema or the schema is `None`; a present key whose `data[key]` raises fails with that exception (the usual path for string, list and tuple data); a present key with a type schema, when `data[key]` can be read, passes exactly when `data[key]` is an instance of it, failing by `AssertionError` |
| Matcher.CheckItem | runtime/schema.py:50 | a schema item that is not iterable fails with `TypeError`, and an iterable that does not have two elements fails with `ValueError`, before any field check |
| Matcher.CheckItemChecksPair | runtime/schema.py:50-65 | an item that unpacks is checked as the field it unpacks to; for a two-element list or tuple that is the field `(item[0], item[1])`, key first |
| Matcher.Match | runtime/schema.py:36-67 | a successful match returns the data it was given; a schema that is neither iterable nor the `dict` type imposes no constraint; the `dict` type raises `TypeError` |
| Matcher.MatchItems | runtime/schema.py:50-67 | the loop over the schema's items, when it finishes, returns `data` unchanged |
| MatcherProperties.MatchItemsPassIffAllPass | runtime/schema.py:50-65 | the loop from item `i` on completes exactly when every later item's check passes |
| MatcherProperties.MatchItemsStopsAtFirstFailure | runtime/schema.py:50-65 | when item `j` is the first failing item from `i` on, the loop raises that item's exception |
| MatcherProperties.MatchPassesIffEveryItemPasses | runtime/schema.py:50-67 | a match succeeds exactly when every schema item, unpacked and checked, passes |
| MatcherProperties.FirstFailingItemDecides | runtime/schema.py:50-65 | errors are not accumulated: the first failing item in schema order decides the exception the match raises |
| MatcherProperties.DictSchemaChecksEveryField | runtime/schema.py:41-65 | a dict schema matches exactly when each of its `(key, value)` entries passes its field check |
| MatcherProperties.DictSchemaStopsAtFirstFailingField | runtime/schema.py:41-65 | for a dict schema the first failing entry in insertion order decides the exception; later entries are not looked at |
| MatcherProperties.PairlessSchemasRaise | runtime/schema.py:43-50 | a non-empty string schema raises `ValueError`, and a list or tuple schema whose first element is not iterable (such as `[int]`) raises `TypeError`, instead of being ignored |
| MatcherProperties.AbsentKeyField | runtime/schema.py:51-55 | a key absent from dict data follows the missing-key rule whatever the field schema is |
| MatcherProperties.DictField | runtime/schema.py:56-58 | for dict data, a dict field schema requires `data[key]` to be a dict (otherwise `AssertionError`) and then passes exactly when the nested match succeeds, raising what it raises |
| MatcherProperties.ListField | runtime/schema.py:59-62 | for dict data, a list field schema requires `data[key]` to be a list (otherwise `AssertionError`) and then runs the element loop over the schema's own list as written, or over the data's list in the corrected rule |
| MatcherProperties.PlainField | runtime/schema.py:63-65 | for dict data, any other field schema passes exactly when the present `data[key]` is an instance of it; a type object fails only by `AssertionError`, and a schema that is neither a type nor a tuple raises `TypeError` (no example-instance fallback here) |
| MatcherProperties.MissingKeyExamples | runtime/schema.py:51-55 | for an absent key: `int` fails, `None` and `type(None)` pass, the example instance `5` fails, and `(int, type(None))` passes |
| MatcherProperties.ListElementsPassIff | runtime/schema.py:61-62 | the element loop passes exactly when there is nothing to walk, or `form[key][0]` can be read and every walked item is an instance of it |
| MatcherProperties.ListElementsFailWithAssertion | runtime/schema.py:61-62 | when `form[key][0]` is a type object, the element loop can fail only with `AssertionError` |
| MatcherProperties.ListFieldIgnoresDataElements | runtime/schema.py:59-62 | as written, once `data[key]` is a list, the outcome is the same for any two data values: the contents of `data[key]` are never read |
| MatcherProperties.ListOfTypeRejectsEveryList | runtime/schema.py:59-62 | as written, a list schema `[t, ...]` whose type `t` does not admit type objects (`[int]`, `[str]`) rejects every list with `AssertionError` |
| MatcherProperties.ListFieldChecksDataElements | runtime/schema.py:59-62 | with the data's list walked, a list schema `[t, ...]` passes exactly when every element of `data[key]` is an instance of `t`, and fails with `AssertionError` otherwise |
| MatcherExamples.OneFieldSchema | runtime/schema.py:50-67 | a one-entry dict schema returns the data when its field check passes and raises what that check raises otherwise |
| MatcherExamples.FlatDictExamples | runtime/schema.py:63-65 | `{"b": int}` accepts `{"b": 5}` and rejects `{"b": "x"}` |
| MatcherExamples.NestedDictExamples | runtime/schema.py:56-58 | `{"a": {"b": int}}` accepts `{"a": {"b": 5}}` and rejects `{"a": {"b": "x"}}` and `{"a": 5}` |
| MatcherExamples.AbsentKeyExamples | runtime/schema.py:51-55 | against `{}`: `{"a": int}` fails, `{"a": type(None)}` and `{"a": None}` pass, `{"a": 5}` fails |
| MatcherExamples.ListFieldExampleAsWritten | runtime/schema.py:59-62 | as written, `{"items": [int]}` rejects `{"items": [1, 2, 3]}` |
| MatcherExamples.ListFieldExampleIntendedAccepts | runtime/schema.py:59-62 | with the data's list walked, `{"items": [int]}` accepts `{"items": [1, 2, 3]}` |
| MatcherExamples.ListFieldExampleIntendedRejects | runtime/schema.py:59-62 | with the data's list walked, `{"items": [int]}` rejects `{"items": [1, "x"]}` |
| MatcherExamples.PairListSchemaExamples | runtime/schema.py:47-65 | the schema `[["a", int]]` accepts `{"a": 1}` and rejects `{"a": "x"}`: each pair is read as `(key, value)` in that order |
| MatcherExamples.TupleFieldExample | runtime/schema.py:63-65 | `{"a": (int, None)}` accepts `{"a": 1}`: the tuple answers at `int` and its non-type member `None` is never consulted |
| MatcherExamples.NonDictDataExamples | runtime/schema.py:51-65 | `{"a": int}` against the string `"abc"` or the list `["a"]` finds `"a"` present and raises `TypeError` from `data["a"]` |
| MatcherExamples.TypeAnnotationExamples | runtime/schema.py:5-47 | plain type annotations such as `int` and `list` impose no constraint, but `dict` raises `TypeError` |
| Interceptor.ValidateSchema | runtime/schema.py:30-33 | a name with no annotation or a `None` annotation always passes; otherwise the check passes exactly when the matcher succeeds, and fails with the matcher's own exception |
| Interceptor.Annotation | runtime/schema.py:31 | the annotation is `None` for a name without one, and the stored annotation otherwise |
| Interceptor.Bindings | runtime/schema.py:17-20 | there are `min(len(args), co_nlocals) + len(kwargs)` checked pairs: positional argument `i` under `co_varnames[i]`, then the keyword arguments in call order |
| Interceptor.PositionalChecks | runtime/schema.py:17-18 | a failure of the first loop is the failure of the check of some positional argument within the bound |
| Interceptor.CheckBindings | runtime/schema.py:17-20 | no pairs means no failure, and any failure is the failure of one of the pairs' own checks |
| Interceptor.CheckBindingsAppend | runtime/schema.py:17-20 | checking two runs of pairs one after the other is the same as checking their concatenation |
| Interceptor.ValidatedCall | runtime/schema.py:16-25 | the function runs exactly when every argument check passes, and a call that skips it raises; once it has run, its own exception is raised unchanged, a failing `'return'` check raises that check's exception, and a returned value is the function's own result that passed the `'return'` check |
| Interceptor.CheckBindingsPassIff | runtime/schema.py:17-20 | the argument checks all complete exactly when each one passes on its own |
| Interceptor.CheckBindingsFirstFailure | runtime/schema.py:17-20 | the first argument check that raises decides the exception |
| Interceptor.ValidatedFunction | runtime/schema.py:16-25 | the statement-by-statement wrapper computes the modelled call outcome: the function runs exactly when every argument check passes, and any value returned is the function's own result |
| InterceptorProperties.SuccessfulCallIsTransparent | runtime/schema.py:16-25 | a call returns `v` exactly when every argument check passes, the function returns `v`, and `v` passes the `'return'` check |
| InterceptorProperties.ArgumentFailureSkipsBody | runtime/schema.py:16-22 | when an argument check is the first to raise, the call raises that exception and the function never runs |
| InterceptorProperties.BindingOrder | runtime/schema.py:17-20 | the argument checks are the first loop's checks (positional argument `i` under `co_varnames[i]` for `i < min(len(args), co_nlocals)`) followed by the second loop's checks (each keyword argument under its own name); a check that raises in the first loop skips the second |
| InterceptorProperties.ExtraPositionalArgumentsUnchecked | runtime/schema.py:17 | positional arguments beyond `co_nlocals` are never checked |
| InterceptorProperties.SameAnnotationsSameChecks | runtime/schema.py:31 | the checks depend on the annotations only through `__annotations__.get(name, None)` |
| InterceptorProperties.NoneAnnotationActsAsAbsent | runtime/schema.py:31-32 | an annotation of `None` behaves exactly as no annotation |
| InterceptorProperties.UnannotatedCallIsPlainCall | runtime/schema.py:16-32 | with no usable annotation on any checked name, the wrapped call is the plain call |
| InterceptorProperties.BadIdFailsAtId | runtime/schema.py:50-65 | for `{"id": int, "tags": [str]}` and the record `{"id": "bad", "tags": ["a"]}`, `"id"` is the first entry, its field check fails with `AssertionError`, and that exception is what the match raises |
| InterceptorProperties.WellFormedRecordFailsAtTags | runtime/schema.py:59-65 | as written, for `{"id": int, "tags": [str]}` and the record `{"id": 1, "tags": ["a", "b"]}`, the `"id"` check passes, the `"tags"` check fails with `AssertionError`, and the match raises `AssertionError` |
| InterceptorProperties.ReturnCheckPasses | runtime/schema.py:24 | the result `{"ok": True}` passes the return annotation `{"ok": bool}` |
| InterceptorProperties.OneArgumentCall | runtime/schema.py:16-25 | a one-argument call of `f(x)` is checked once, under `"x"`: if that check raises, the call raises the same exception and the function does not run; otherwise the function's result `{"ok": True}` comes back |
| InterceptorProperties.AnnotatedCallScenarios | runtime/schema.py:12-25 | both calls above raise `AssertionError` before the decorated function runs |

## Left out

- The `print` of the schema items (runtime/schema.py:49) is console output and has no effect on the outcome.
- `functools.wraps` (runtime/schema.py:15) copies metadata onto the wrapper and is not modelled.
- The `collections.Iterable` import (runtime/schema.py:9) fails on Python 3.10 and later. The model assumes an interpreter where it succeeds, and `Builtins.Iterable` stands for the test.
- `isinstance` covers only the built-in classes. That excludes user classes, ABCs, floats, sets and bytes objects.
- Dict keys in data and schemas are strings. Other hashable keys can be asked for but never found.
- Subscripting a type object (`dict[str]`, a generic alias on Python 3.9+) is modelled as `TypeError`, its behaviour on earlier versions.
- `__code__` introspection: `Interceptor.Function` holds `co_varnames` and `__annotations__`, and `co_nlocals` is taken as `len(co_varnames)`, which is how CPython's compiler sets it.
- The decorated function's body is a parameter (`Interceptor.Body`): a given map from arguments to a result or an exception. Its exceptions are drawn from the five modelled classes, so a function raising another class (say `RuntimeError`) is represented only up to that choice. No lemma depends on which class the function raises; the wrapper passes it on unchanged.
- Python's recursion limit, and cyclic or self-referencing schemas, are left out. Objects are finite trees.
- Python runs with assertions enabled (`__debug__` is true). Under `python -O` the `assert` statements of lines 53-65 are removed, so the matcher would neither raise `AssertionError` nor evaluate those `isinstance` calls. That mode is not modelled.
- `PyObjects.Obj` allows a dict with repeated keys, which Python cannot build. A lookup then reads the first entry with the key. No lemma depends on keys being unique, so the proofs also hold for such values.
- Determinism (a repeated call gives the same outcome) holds by construction, since the matcher and the wrapper are functions. No separate lemma states it; that a successful match hands back its own argument is part of `Matcher.Match`'s contract.
- Interceptor.ValidatedFunction: uses only the list rule as written; the corrected rule appears only in the matcher lemmas.

## Findings

| source | as written | input that shows it | evidently intended | confidence | as-written member | corrected member |
|---|---|---|---|---|---|---|
| runtime/schema.py:61 | the list branch loops over the schema's own list (`for item in value`) and checks each schema element against `form[key][0]`, so the data's list is never read | schema `{"items": [int]}` with data `{"items": [1, 2, 3]}`: the loop asks `isinstance(int, int)`, which is false, so `AssertionError` | loop over `data[key]`, so each element of the data's list must be an instance of `form[key][0]` | not executed | MatcherProperties.ListOfTypeRejectsEveryList | MatcherProperties.ListFieldChecksDataElements |

=== FILE: builtins.dfy ===
/**
 The Python built-ins the matcher leans on, over the object universe of
 `PyObjects`: `type`, `isinstance`, `==`, `hash`-ability, `in`, subscription
 `x[k]` and two-target unpacking `a, b = x`. Each follows CPython's behaviour
 for the built-in classes, including which exception it raises.
 */
module Builtins {
  import opened PyObjects

  /** `type(o)` */
  function TypeOf(o: Obj): TypeTag
  {
    match o
    case None => NoneType
    case Bool(_) => BoolType
    case Int(_) => IntType
    case Str(_) => StrType
    case List(_) => ListType
    case Tuple(_) => TupleType
    case Dict(_) => DictType
    case Type(_) => TypeType
  }

  /** `issubclass(t, u)` over the built-in hierarchy: `bool` derives from `int`, all from `object`. */
  predicate IsSubclass(t: TypeTag, u: TypeTag)
  {
    u == ObjectType || t == u || (t == BoolType && u == IntType)
  }

  /**
   `isinstance(o, classinfo)`. A type object is answered by subclassing; a tuple is
   scanned left to right, stopping at the first member that answers true or raises;
   anything else raises `TypeError` ("arg 2 must be a type or tuple of types").
   */
  function IsInstance(o: Obj, classinfo: Obj): (r: Result<bool>)
    decreases classinfo
    ensures r.Raised? ==> r.exc == TypeError
    ensures classinfo.Type? ==> r == Ok(IsSubclass(TypeOf(o), classinfo.tag))
    ensures !classinfo.Type? && !classinfo.Tuple? ==> r == Raised(TypeError)
  {
    match classinfo
    case Type(t) => Ok(IsSubclass(TypeOf(o), t))
    case Tuple(cs) => IsInstanceOfAny(o, cs)
    case _ => Raised(TypeError)
  }

  function IsInstanceOfAny(o: Obj, cs: seq<Obj>): (r: Result<bool>)
    decreases cs
    ensures r.Raised? ==> r.exc == TypeError
    ensures r == Ok(false) <==> forall i | 0 <= i < |cs| :: IsInstance(o, cs[i]) == Ok(false)
    ensures r != Ok(false) ==> exists i | 0 <= i < |cs| ::
              r == IsInstance(o, cs[i]) && forall j | 0 <= j < i :: IsInstance(o, cs[j]) == Ok(false)
  {
    if |cs| == 0 then Ok(false)
    else
      match IsInstance(o, cs[0])
      case Ok(false) => IsInstanceOfAny(o, cs[1..])
      case other => other
  }

  /** Every member of a classinfo tuple is a type object. */
  predicate AllTypes(cs: seq<Obj>)
  {
    forall i | 0 <= i < |cs| :: cs[i].Type?
  }

  /** A tuple of type objects behaves as the union of its members, and never raises. */
  lemma {:induction false} TupleOfTypesIsUnion(o: Obj, cs: seq<Obj>)
    requires AllTypes(cs)
    ensures IsInstance(o, Tuple(cs))
            == Ok(exists i | 0 <= i < |cs| :: IsSubclass(TypeOf(o), cs[i].tag))
    decreases cs
  {
    if |cs| > 0 {
      TupleOfTypesIsUnion(o, cs[1..]);
      if !IsSubclass(TypeOf(o), cs[0].tag) {
        forall i | 0 < i < |cs|
          ensures IsSubclass(TypeOf(o), cs[i].tag) == IsSubclass(TypeOf(o), cs[1..][i - 1].tag)
        {
        }
      }
    }
  }

  /** The numeric value of an `int` or `bool` (`True == 1`). */
  function NumValue(o: Obj): int
    requires o.Int? || o.Bool?
  {
    if o.Int? then o.i else if o.b then 1 else 0
  }

  /**
   The position of the first entry with key `k`, or `|es|` when there is none:
   how a dict finds a key.
   */
  function KeyIndex(es: seq<(string, Obj)>, k: string): (i: nat)
    ensures i <= |es|
    ensures i < |es| ==> es[i].0 == k
    ensures forall j | 0 <= j < i :: es[j].0 != k
  {
    if |es| == 0 then 0
    else if es[0].0 == k then 0
    else 1 + KeyIndex(es[1..], k)
  }

  /** `a == b` for the built-in classes; dicts compare by key, not by order. */
  predicate PyEq(a: Obj, b: Obj)
    decreases a
  {
    match a
    case None => b.None?
    case Bool(_) => (b.Int? || b.Bool?) && NumValue(a) == NumValue(b)
    case Int(_) => (b.Int? || b.Bool?) && NumValue(a) == NumValue(b)
    case Str(s) => b.Str? && b.s == s
    case Type(t) => b.Type? && b.tag == t
    case List(xs) =>
      b.List? && |xs| == |b.items| && forall i | 0 <= i < |xs| :: PyEq(xs[i], b.items[i])
    case Tuple(xs) =>
      b.Tuple? && |xs| == |b.items| && forall i | 0 <= i < |xs| :: PyEq(xs[i], b.items[i])
    case Dict(es) =>
      b.Dict? && |es| == |b.entries| &&
      forall i | 0 <= i < |es| ::
        KeyIndex(b.entries, es[i].0) < |b.entries| &&
        PyEq(es[i].1, b.entries[KeyIndex(b.entries, es[i].0)].1)
  }

  /** Whether `hash(o)` succeeds: lists and dicts are unhashable, tuples when a member is. */
  predicate Hashable(o: Obj)
  {
    match o
    case List(_) => false
    case Dict(_) => false
    case Tuple(xs) => forall i | 0 <= i < |xs| :: Hashable(xs[i])
    case _ => true
  }

  /** `k` occurs as a contiguous run of `s` (`k in s` for strings). */
  predicate IsSubstring(k: string, s: string)
    decreases |s|
  {
    |k| <= |s| && (k == s[..|k|] || IsSubstring(k, s[1..]))
  }

  /** Whether `iter(o)` succeeds: `isinstance(o, collections.Iterable)`. */
  predicate Iterable(o: Obj)
  {
    o.Str? || o.List? || o.Tuple? || o.Dict?
  }

  /**
   `key in container`. A dict hashes the key first; lists and tuples compare each
   element with `==`; a string needs a string operand; other objects are not containers.
   */
  function Contains(container: Obj, key: Obj): (r: Result<bool>)
    ensures r.Raised? ==> r.exc == TypeError
    ensures r.Raised? <==> !Iterable(container)
                           || (container.Dict? && !Hashable(key))
                           || (container.Str? && !key.Str?)
    ensures container.Dict? && Hashable(key)
            ==> r == Ok(key.Str? && KeyIndex(container.entries, key.s) < |container.entries|)
    ensures container.List? || container.Tuple?
            ==> r.Ok? && (r.value <==> exists i | 0 <= i < |container.items| :: PyEq(container.items[i], key))
    ensures container.Str? && key.Str? ==> r == Ok(IsSubstring(key.s, container.s))
  {
    match container
    case Dict(es) =>
      if !Hashable(key) then Raised(TypeError)
      else Ok(key.Str? && KeyIndex(es, key.s) < |es|)
    case List(xs) => Ok(exists i | 0 <= i < |xs| :: PyEq(xs[i], key))
    case Tuple(xs) => Ok(exists i | 0 <= i < |xs| :: PyEq(xs[i], key))
    case Str(s) => if key.Str? then Ok(IsSubstring(key.s, s)) else Raised(TypeError)
    case _ => Raised(TypeError)
  }

  /** `xs[key]` for a list or tuple: an integer index, negative ones counting from the end. */
  function IndexInto(xs: seq<Obj>, key: Obj): (r: Result<Obj>)
    ensures r.Ok? ==> exists k | 0 <= k < |xs| :: r.value == xs[k]
  {
    if key.Int? || key.Bool? then
      var n := NumValue(key);
      var k := if n < 0 then n + |xs| else n;
      if 0 <= k < |xs| then Ok(xs[k]) else Raised(IndexError)
    else Raised(TypeError)
  }

  /** `container[key]` */
  function Subscript(container: Obj, key: Obj): (r: Result<Obj>)
    ensures !Iterable(container) ==> r == Raised(TypeError)
    ensures r.Raised? ==> r.exc == TypeError || r.exc == KeyError || r.exc == IndexError
    ensures (container.List? || container.Tuple?) && r.Ok?
            ==> exists k | 0 <= k < |container.items| :: r.value == container.items[k]
    ensures container.Dict? && r.Ok? ==> exists k | 0 <= k < |container.entries| :: r.value == container.entries[k].1
    ensures (container.List? || container.Tuple? || container.Str?) && !key.Int? && !key.Bool?
            ==> r == Raised(TypeError)
    ensures (container.List? || container.Tuple?) && key.Int? && 0 <= key.i < |container.items|
            ==> r == Ok(container.items[key.i])
    ensures (container.List? || container.Tuple?) && key.Int? && -|container.items| <= key.i < 0
            ==> r == Ok(container.items[key.i + |container.items|])
    ensures (container.List? || container.Tuple?) && key.Int? && !(-|container.items| <= key.i < |container.items|)
            ==> r == Raised(IndexError)
    ensures container.Str? && key.Int? && 0 <= key.i < |container.s| ==> r == Ok(Str([container.s[key.i]]))
  {
    match container
    case Dict(es) =>
      if !Hashable(key) then Raised(TypeError)
      else if key.Str? && KeyIndex(es, key.s) < |es| then Ok(es[KeyIndex(es, key.s)].1)
      else Raised(KeyError)
    case List(xs) => IndexInto(xs, key)
    case Tuple(xs) => IndexInto(xs, key)
    case Str(s) =>
      var chars := seq(|s|, i requires 0 <= i < |s| => Str([s[i]]));
      IndexInto(chars, key)
    case _ => Raised(TypeError)
  }

  /**
   A dict answers `key in d` and `d[key]` consistently: a key it reports present can
   be read, and an absent string key raises `KeyError`.
   */
  lemma ContainsAgreesWithSubscript(es: seq<(string, Obj)>, key: Obj)
    ensures Contains(Dict(es), key) == Ok(true) <==> Subscript(Dict(es), key).Ok?
    ensures Contains(Dict(es), key) == Ok(true) ==>
              Subscript(Dict(es), key) == Ok(es[KeyIndex(es, key.s)].1)
    ensures key.Str? && Contains(Dict(es), key) == Ok(false) ==>
              Subscript(Dict(es), key) == Raised(KeyError)
  {
  }

  /**
   `a, b = e`: succeeds exactly for iterables of length two, yielding their two
   elements (a dict yields its keys, a string its characters).
   */
  function Unpack(e: Obj): (r: Result<(Obj, Obj)>)
    ensures r.Ok? ==> Size(r.value.0) < Size(e) && Size(r.value.1) < Size(e)
    ensures r.Raised? && Iterable(e) ==> r.exc == ValueError
    ensures r.Raised? && !Iterable(e) ==> r.exc == TypeError
    ensures r.Ok? <==> Iterable(e) && Length(e) == 2
    ensures r.Ok? && (e.List? || e.Tuple?) ==> r.value == (e.items[0], e.items[1])
    ensures r.Ok? && e.Str? ==> r.value == (Str([e.s[0]]), Str([e.s[1]]))
    ensures r.Ok? && e.Dict? ==> r.value == (Str(e.entries[0].0), Str(e.entries[1].0))
  {
    match e
    case List(xs) =>
      if |xs| == 2 then
        SizeOfAllBounds(xs, 0);
        SizeOfAllBounds(xs, 1);
        Ok((xs[0], xs[1]))
      else Raised(ValueError)
    case Tuple(xs) =>
      if |xs| == 2 then
        SizeOfAllBounds(xs, 0);
        SizeOfAllBounds(xs, 1);
        Ok((xs[0], xs[1]))
      else Raised(ValueError)
    case Str(s) => if |s| == 2 then Ok((Str([s[0]]), Str([s[1]]))) else Raised(ValueError)
    case Dict(es) =>
      if |es| == 2 then
        SizeOfEntriesBounds(es, 0);
        SizeOfEntriesBounds(es, 1);
        Ok((Str(es[0].0), Str(es[1].0)))
      else Raised(ValueError)
    case _ => Raised(TypeError)
  }

  /** `len(o)` for an iterable. */
  function Length(o: Obj): nat
    requires Iterable(o)
  {
    match o
    case Str(s) => |s|
    case List(xs) => |xs|
    case Tuple(xs) => |xs|
    case Dict(es) => |es|
  }
}

=== FILE: interceptor.dfy ===
/**
 The `schema` decorator of runtime/schema.py: the wrapper `validated_function`
 and its helper `_validate_schema`.

 A call first checks each positional argument under the name of the local
 variable at its position, then each keyword argument under its own name, then
 runs the function, then checks the result under the name `'return'`. A name whose
 annotation is missing or `None` is not checked. Each check is a call of the
 matcher as written (`Matcher.Match` with `SchemaItems`); the first one that
 raises ends the call with that exception.
 */
module Interceptor {
  import opened PyObjects
  import opened Builtins
  import opened Matcher

  /**
   What the wrapper reads from the decorated function: `__code__.co_varnames`
   (whose length is `__code__.co_nlocals`) and `__annotations__`.
   */
  datatype Function = Function(varnames: seq<string>, annotations: map<string, Obj>)

  /** Keyword arguments in call order. */
  type Kwargs = seq<(string, Obj)>

  /** The decorated function's own behaviour: its result for a call, or what it raised. */
  type Body = (seq<Obj>, Kwargs) -> Result<Obj>

  /** The name under which the result is checked. */
  const ReturnName: string := "return"

  /** The outcome of one wrapped call, and whether the function itself was run. */
  datatype Call = Call(result: Result<Obj>, bodyRan: bool)

  function Min(a: nat, b: nat): nat
  {
    if a < b then a else b
  }

  /** `f.__annotations__.get(name, None)` */
  function Annotation(f: Function, name: string): (r: Obj)
    ensures name !in f.annotations ==> r == None
    ensures name in f.annotations ==> r == f.annotations[name]
  {
    if name in f.annotations then f.annotations[name] else None
  }

  /**
   `_validate_schema(f, name, arg)`: match `arg` against the annotation for `name`
   when there is one that is not `None`; the matcher's return value is dropped.
   */
  function ValidateSchema(f: Function, name: string, arg: Obj): (r: Outcome)
    ensures Annotation(f, name) == None ==> r == Pass
    ensures r == Pass <==> Annotation(f, name) == None || Match(SchemaItems, Annotation(f, name), arg).Ok?
    ensures Annotation(f, name) != None && Match(SchemaItems, Annotation(f, name), arg).Raised?
            ==> r == Failed(Match(SchemaItems, Annotation(f, name), arg).exc)
  {
    var schema := Annotation(f, name);
    if schema == None then Pass else Discard(Match(SchemaItems, schema, arg))
  }

  /**
   The `(name, value)` pairs checked before the call, in order: positional
   argument `i` under `co_varnames[i]` for `i < min(len(args), co_nlocals)`, then
   the keyword arguments.
   */
  function Bindings(f: Function, args: seq<Obj>, kwargs: Kwargs): (r: seq<(string, Obj)>)
    ensures |r| == Min(|args|, |f.varnames|) + |kwargs|
    ensures forall i | 0 <= i < Min(|args|, |f.varnames|) :: r[i] == (f.varnames[i], args[i])
    ensures r[Min(|args|, |f.varnames|)..] == kwargs
  {
    var n := Min(|args|, |f.varnames|);
    seq(n, i requires 0 <= i < n => (f.varnames[i], args[i])) + kwargs
  }

  /**
   The first loop (lines 17-18) from position `i` on: positional argument `i` is
   checked under `co_varnames[i]` while `i < min(len(args), co_nlocals)`.
   */
  function PositionalChecks(f: Function, args: seq<Obj>, i: nat): (r: Outcome)
    decreases Min(|args|, |f.varnames|) - i
    ensures r.Failed? ==> exists k | i <= k < Min(|args|, |f.varnames|) ::
              ValidateSchema(f, f.varnames[k], args[k]) == r
  {
    if i >= Min(|args|, |f.varnames|) then Pass
    else Then(ValidateSchema(f, f.varnames[i], args[i]), PositionalChecks(f, args, i + 1))
  }

  /** Run `_validate_schema` on each pair in order, stopping at the first that raises. */
  function CheckBindings(f: Function, bs: seq<(string, Obj)>): (r: Outcome)
    ensures |bs| == 0 ==> r == Pass
    ensures r.Failed? ==> exists k | 0 <= k < |bs| :: ValidateSchema(f, bs[k].0, bs[k].1) == r
  {
    if |bs| == 0 then Pass
    else Then(ValidateSchema(f, bs[0].0, bs[0].1), CheckBindings(f, bs[1..]))
  }

  /** `validated_function(*args, **kwargs)` */
  function ValidatedCall(f: Function, body: Body, args: seq<Obj>, kwargs: Kwargs): (r: Call)
    ensures r.bodyRan <==> CheckBindings(f, Bindings(f, args, kwargs)) == Pass
    ensures !r.bodyRan ==> r.result.Raised?
    ensures r.result.Ok? ==> body(args, kwargs) == r.result && ValidateSchema(f, ReturnName, r.result.value) == Pass
    ensures r.bodyRan && body(args, kwargs).Raised? ==> r.result == body(args, kwargs)
    ensures r.bodyRan && body(args, kwargs).Ok? && ValidateSchema(f, ReturnName, body(args, kwargs).value).Failed?
            ==> r.result == Raised(ValidateSchema(f, ReturnName, body(args, kwargs).value).exc)
  {
    match CheckBindings(f, Bindings(f, args, kwargs))
    case Failed(e) => Call(Raised(e), false)
    case Pass =>
      match body(args, kwargs)
      case Raised(e) => Call(Raised(e), true)
      case Ok(result) =>
        match ValidateSchema(f, ReturnName, result)
        case Failed(e) => Call(Raised(e), true)
        case Pass => Call(Ok(result), true)
  }

  // ---------------------------------------------------------------------------
  // Checking a sequence of bindings
  // ---------------------------------------------------------------------------

  /** All checks pass exactly when each pair's check passes on its own. */
  lemma {:induction false} CheckBindingsPassIff(f: Function, bs: seq<(string, Obj)>)
    ensures CheckBindings(f, bs) == Pass
            <==> forall i | 0 <= i < |bs| :: ValidateSchema(f, bs[i].0, bs[i].1) == Pass
    decreases |bs|
  {
    if |bs| > 0 {
      CheckBindingsPassIff(f, bs[1..]);
      assert forall i | 1 <= i < |bs| :: bs[i] == bs[1..][i - 1];
    }
  }

  /** Checking two runs of pairs one after the other is checking their concatenation. */
  lemma {:induction false} CheckBindingsAppend(f: Function, a: seq<(string, Obj)>, b: seq<(string, Obj)>)
    ensures CheckBindings(f, a + b) == Then(CheckBindings(f, a), CheckBindings(f, b))
    decreases |a|
  {
    if |a| > 0 {
      assert (a + b)[0] == a[0];
      assert (a + b)[1..] == a[1..] + b;
      CheckBindingsAppend(f, a[1..], b);
    } else {
      assert a + b == b;
    }
  }

  /** The first pair whose check raises decides the exception. */
  lemma {:induction false} CheckBindingsFirstFailure(f: Function, bs: seq<(string, Obj)>, k: nat)
    requires k < |bs|
    requires forall i | 0 <= i < k :: ValidateSchema(f, bs[i].0, bs[i].1) == Pass
    requires ValidateSchema(f, bs[k].0, bs[k].1).Failed?
    ensures CheckBindings(f, bs) == ValidateSchema(f, bs[k].0, bs[k].1)
    decreases k
  {
    if k > 0 {
      assert forall i | 0 <= i < k - 1 :: bs[1..][i] == bs[i + 1];
      CheckBindingsFirstFailure(f, bs[1..], k - 1);
    }
  }

  // ---------------------------------------------------------------------------
  // The wrapper, statement by statement
  // ---------------------------------------------------------------------------

  /**
   Lines 16-25 as two loops and two calls. It computes `ValidatedCall`: the
   function runs exactly when every argument check passes, and a result is
   returned only when the return check passes too.
   */
  method ValidatedFunction(f: Function, body: Body, args: seq<Obj>, kwargs: Kwargs)
    returns (result: Result<Obj>, bodyRan: bool)
    ensures Call(result, bodyRan) == ValidatedCall(f, body, args, kwargs)
    ensures bodyRan <==> CheckBindings(f, Bindings(f, args, kwargs)) == Pass
    ensures result.Ok? ==> body(args, kwargs) == result
  {
    var bs := Bindings(f, args, kwargs);
    var n := Min(|args|, |f.varnames|);
    var i := 0;
    while i < n
      invariant 0 <= i <= n
      invariant forall k | 0 <= k < i :: ValidateSchema(f, bs[k].0, bs[k].1) == Pass
    {
      var checked := ValidateSchema(f, f.varnames[i], args[i]);
      if checked.Failed? {
        CheckBindingsFirstFailure(f, bs, i);
        return Raised(checked.exc), false;
      }
      i := i + 1;
    }
    var j := 0;
    while j < |kwargs|
      invariant 0 <= j <= |kwargs|
      invariant forall k | 0 <= k < n + j :: ValidateSchema(f, bs[k].0, bs[k].1) == Pass
    {
      var (name, arg) := kwargs[j];
      var checked := ValidateSchema(f, name, arg);
      if checked.Failed? {
        CheckBindingsFirstFailure(f, bs, n + j);
        return Raised(checked.exc), false;
      }
      j := j + 1;
    }
    CheckBindingsPassIff(f, bs);
    bodyRan := true;
    var called := body(args, kwargs);
    if called.Raised? {
      return called, bodyRan;
    }
    var checked := ValidateSchema(f, ReturnName, called.value);
    if checked.Failed? {
      return Raised(checked.exc), bodyRan;
    }
    return called, bodyRan;
  }
}

=== FILE: interceptor_properties.dfy ===
/**
 What the `schema` decorator guarantees about a wrapped call: it is transparent
 when every check passes, an argument that fails stops the call before the
 function runs, names without a usable annotation are never checked, and
 positional arguments past the function's local slots are not looked at.
 */
module InterceptorProperties {
  import opened PyObjects
  import opened Builtins
  import opened Matcher
  import opened MatcherProperties
  import opened MatcherExamples
  import opened Interceptor

  /**
   A call returns `v` exactly when every argument check passes, the function
   itself returns `v`, and `v` passes the return check: the wrapper hands back
   the function's own result, unchanged.
   */
  lemma SuccessfulCallIsTransparent(f: Function, body: Body, args: seq<Obj>, kwargs: Kwargs, v: Obj)
    ensures ValidatedCall(f, body, args, kwargs).result == Ok(v)
            <==> && (forall i | 0 <= i < |Bindings(f, args, kwargs)| ::
                       ValidateSchema(f, Bindings(f, args, kwargs)[i].0, Bindings(f, args, kwargs)[i].1) == Pass)
                 && body(args, kwargs) == Ok(v)
                 && ValidateSchema(f, ReturnName, v) == Pass
  {
    CheckBindingsPassIff(f, Bindings(f, args, kwargs));
  }

  /**
   When the `k`-th argument check is the first to raise, the call raises that
   exception and the function is never run.
   */
  lemma ArgumentFailureSkipsBody(f: Function, body: Body, args: seq<Obj>, kwargs: Kwargs, k: nat)
    requires k < |Bindings(f, args, kwargs)|
    requires forall i | 0 <= i < k ::
               ValidateSchema(f, Bindings(f, args, kwargs)[i].0, Bindings(f, args, kwargs)[i].1) == Pass
    requires ValidateSchema(f, Bindings(f, args, kwargs)[k].0, Bindings(f, args, kwargs)[k].1).Failed?
    ensures ValidatedCall(f, body, args, kwargs)
            == Call(Raised(ValidateSchema(f, Bindings(f, args, kwargs)[k].0, Bindings(f, args, kwargs)[k].1).exc), false)
  {
    CheckBindingsFirstFailure(f, Bindings(f, args, kwargs), k);
  }

  /**
   The checks run in the order of the two loops: every positional check (lines
   17-18) before any keyword check (lines 19-20), each loop in its own order, and
   the first check that raises ends the call.
   */
  lemma BindingOrder(f: Function, args: seq<Obj>, kwargs: Kwargs)
    ensures CheckBindings(f, Bindings(f, args, kwargs))
            == Then(PositionalChecks(f, args, 0), CheckBindings(f, kwargs))
  {
    var n := Min(|args|, |f.varnames|);
    var bs := Bindings(f, args, kwargs);
    CheckBindingsAppend(f, bs[..n], kwargs);
    assert bs == bs[..n] + kwargs;
    PositionalChecksAreBindingChecks(f, args, kwargs, 0);
  }

  /** The first loop from position `i` checks exactly the positional bindings from `i` on. */
  lemma {:induction false} PositionalChecksAreBindingChecks(f: Function, args: seq<Obj>, kwargs: Kwargs, i: nat)
    requires i <= Min(|args|, |f.varnames|)
    ensures PositionalChecks(f, args, i)
            == CheckBindings(f, Bindings(f, args, kwargs)[i..Min(|args|, |f.varnames|)])
    decreases Min(|args|, |f.varnames|) - i
  {
    var n := Min(|args|, |f.varnames|);
    var bs := Bindings(f, args, kwargs);
    if i < n {
      PositionalChecksAreBindingChecks(f, args, kwargs, i + 1);
      assert bs[i..n][0] == (f.varnames[i], args[i]);
      assert bs[i..n][1..] == bs[i + 1..n];
    }
  }

  /**
   Positional arguments beyond the function's local slots are passed on to the
   function but never checked.
   */
  lemma ExtraPositionalArgumentsUnchecked(f: Function, args: seq<Obj>, extra: seq<Obj>, kwargs: Kwargs)
    requires |args| >= |f.varnames|
    ensures Bindings(f, args + extra, kwargs) == Bindings(f, args, kwargs)
  {
    var n := |f.varnames|;
    assert Min(|args + extra|, n) == n == Min(|args|, n);
    assert forall i | 0 <= i < n :: (args + extra)[i] == args[i];
  }

  /** Two functions with the same annotation for every name check every binding alike. */
  lemma {:induction false} SameAnnotationsSameChecks(f: Function, g: Function, bs: seq<(string, Obj)>)
    requires forall name: string :: Annotation(f, name) == Annotation(g, name)
    ensures CheckBindings(f, bs) == CheckBindings(g, bs)
    decreases |bs|
  {
    if |bs| > 0 {
      SameAnnotationsSameChecks(f, g, bs[1..]);
      assert ValidateSchema(f, bs[0].0, bs[0].1) == ValidateSchema(g, bs[0].0, bs[0].1);
    }
  }

  /** An annotation that is `None` behaves exactly as no annotation at all. */
  lemma NoneAnnotationActsAsAbsent(f: Function, name: string, body: Body, args: seq<Obj>, kwargs: Kwargs)
    requires name in f.annotations && f.annotations[name] == None
    ensures ValidatedCall(f, body, args, kwargs)
            == ValidatedCall(Function(f.varnames, f.annotations - {name}), body, args, kwargs)
  {
    var g := Function(f.varnames, f.annotations - {name});
    assert forall n: string :: Annotation(f, n) == Annotation(g, n);
    SameAnnotationsSameChecks(f, g, Bindings(f, args, kwargs));
    assert ValidateSchema(f, ReturnName, None) == ValidateSchema(g, ReturnName, None);
    assert forall v :: ValidateSchema(f, ReturnName, v) == ValidateSchema(g, ReturnName, v);
  }

  /**
   When no checked name has a usable annotation, the wrapped call is the plain
   call: the function runs and its result or exception comes back as it is.
   */
  lemma UnannotatedCallIsPlainCall(f: Function, body: Body, args: seq<Obj>, kwargs: Kwargs)
    requires forall i | 0 <= i < |Bindings(f, args, kwargs)| :: Annotation(f, Bindings(f, args, kwargs)[i].0) == None
    requires Annotation(f, ReturnName) == None
    ensures ValidatedCall(f, body, args, kwargs) == Call(body(args, kwargs), true)
  {
    CheckBindingsPassIff(f, Bindings(f, args, kwargs));
  }

  // ---------------------------------------------------------------------------
  // A decorated function `f(x: {"id": int, "tags": [str]}) -> {"ok": bool}`
  // whose body returns `{"ok": True}`
  // ---------------------------------------------------------------------------

  function ArgumentSchema(): Obj
  {
    Dict([("id", Type(IntType)), ("tags", List([Type(StrType)]))])
  }

  function Annotated(): Function
  {
    Function(["x"], map["x" := ArgumentSchema(), ReturnName := Dict([("ok", Type(BoolType))])])
  }

  function ReturnsOk(): Body
  {
    (args: seq<Obj>, kwargs: Kwargs) => Ok(Dict([("ok", Bool(true))]))
  }

  /**
   The record `{"id": "bad", "tags": ["a"]}` fails at `"id"`: that is the schema's
   first entry, its field check fails, and its exception is the one the match raises.
   */
  lemma BadIdFailsAtId()
    ensures ArgumentSchema().entries[0] == ("id", Type(IntType))
    ensures CheckField(SchemaItems, ArgumentSchema(), Str("id"), Type(IntType),
                       Dict([("id", Str("bad")), ("tags", List([Str("a")]))]))
            == Failed(AssertionError)
    ensures Match(SchemaItems, ArgumentSchema(), Dict([("id", Str("bad")), ("tags", List([Str("a")]))]))
            == Raised(CheckField(SchemaItems, ArgumentSchema(), Str("id"), Type(IntType),
                                 Dict([("id", Str("bad")), ("tags", List([Str("a")]))])).exc)
  {
    var des := [("id", Str("bad")), ("tags", List([Str("a")]))];
    var x := Dict(des);
    var schema := ArgumentSchema();
    PlainField(SchemaItems, schema, "id", Type(IntType), des);
    assert CheckField(SchemaItems, schema, Str("id"), Type(IntType), x) == Failed(AssertionError);
    DictSchemaStopsAtFirstFailingField(SchemaItems, schema.entries, x, 0);
  }

  /**
   The record `{"id": 1, "tags": ["a", "b"]}` passes the `"id"` check and, as
   written, fails the `"tags"` check, which decides the exception.
   */
  lemma WellFormedRecordFailsAtTags()
    ensures ArgumentSchema().entries == [("id", Type(IntType)), ("tags", List([Type(StrType)]))]
    ensures CheckField(SchemaItems, ArgumentSchema(), Str("id"), Type(IntType),
                       Dict([("id", Int(1)), ("tags", List([Str("a"), Str("b")]))]))
            == Pass
    ensures CheckField(SchemaItems, ArgumentSchema(), Str("tags"), List([Type(StrType)]),
                       Dict([("id", Int(1)), ("tags", List([Str("a"), Str("b")]))]))
            == Failed(AssertionError)
    ensures Match(SchemaItems, ArgumentSchema(), Dict([("id", Int(1)), ("tags", List([Str("a"), Str("b")]))]))
            == Raised(AssertionError)
  {
    var x := Dict([("id", Int(1)), ("tags", List([Str("a"), Str("b")]))]);
    WellFormedRecordFieldChecks();
    DictSchemaStopsAtFirstFailingField(SchemaItems, ArgumentSchema().entries, x, 1);
  }

  /** The two field checks behind the lemma above. */
  lemma WellFormedRecordFieldChecks()
    ensures CheckField(SchemaItems, ArgumentSchema(), Str("id"), Type(IntType),
                       Dict([("id", Int(1)), ("tags", List([Str("a"), Str("b")]))]))
            == Pass
    ensures CheckField(SchemaItems, ArgumentSchema(), Str("tags"), List([Type(StrType)]),
                       Dict([("id", Int(1)), ("tags", List([Str("a"), Str("b")]))]))
            == Failed(AssertionError)
  {
    var des := [("id", Int(1)), ("tags", List([Str("a"), Str("b")]))];
    var schema := ArgumentSchema();
    PlainField(SchemaItems, schema, "id", Type(IntType), des);
    ListOfTypeRejectsEveryList(schema.entries, "tags", StrType, [], Dict(des));
  }

  /** The result `{"ok": True}` passes the return annotation `{"ok": bool}`. */
  lemma ReturnCheckPasses()
    ensures ValidateSchema(Annotated(), ReturnName, Dict([("ok", Bool(true))])) == Pass
  {
    var des := [("ok", Bool(true))];
    OneFieldSchema(SchemaItems, "ok", Type(BoolType), Dict(des));
    PlainField(SchemaItems, Dict([("ok", Type(BoolType))]), "ok", Type(BoolType), des);
  }

  /**
   A call with a single positional argument `x` is checked once, under the name
   `"x"`: if that check raises, the call raises the same exception without running
   the function; otherwise the function's result comes back.
   */
  lemma OneArgumentCall(x: Obj)
    ensures ValidatedCall(Annotated(), ReturnsOk(), [x], [])
            == match Match(SchemaItems, ArgumentSchema(), x)
               case Raised(e) => Call(Raised(e), false)
               case Ok(_) => Call(Ok(Dict([("ok", Bool(true))])), true)
  {
    assert Bindings(Annotated(), [x], []) == [("x", x)];
    assert Annotation(Annotated(), "x") == ArgumentSchema();
    if Match(SchemaItems, ArgumentSchema(), x).Raised? {
      ArgumentFailureSkipsBody(Annotated(), ReturnsOk(), [x], [], 0);
    } else {
      CheckBindingsPassIff(Annotated(), [("x", x)]);
      ReturnCheckPasses();
    }
  }

  /**
   Calling `f({"id": "bad", "tags": ["a"]})` raises `AssertionError` before the
   function runs. As written, so does the well-formed `f({"id": 1, "tags": ["a", "b"]})`:
   the list rule asks whether the type `str` is an instance of `str`.
   */
  lemma AnnotatedCallScenarios()
    ensures ValidatedCall(Annotated(), ReturnsOk(), [Dict([("id", Str("bad")), ("tags", List([Str("a")]))])], [])
            == Call(Raised(AssertionError), false)
    ensures ValidatedCall(Annotated(), ReturnsOk(), [Dict([("id", Int(1)), ("tags", List([Str("a"), Str("b")]))])], [])
            == Call(Raised(AssertionError), false)
  {
    BadIdFailsAtId();
    OneArgumentCall(Dict([("id", Str("bad")), ("tags", List([Str("a")]))]));
    WellFormedRecordFailsAtTags();
    OneArgumentCall(Dict([("id", Int(1)), ("tags", List([Str("a"), Str("b")]))]));
  }
}

=== FILE: matcher.dfy ===
/**
 The schema matcher `_format_asserts(form, data)` of runtime/schema.py.

 `Match(rule, form, data)` walks the key/value pairs of the schema `form` in
 order and checks each against `data`, stopping at the first statement that
 raises. On success it returns `data` itself.

 The `rule` parameter only affects the list branch. `SchemaItems` is the code as
 written: it walks the schema's own list. `DataItems` walks the data's list
 instead, as the module documentation suggests (the argument should match the
 structure of the annotation).
 */
module Matcher {
  import opened PyObjects
  import opened Builtins

  /** Which list the list branch's loop walks. */
  datatype ListRule = SchemaItems | DataItems

  /** Run `first`; if it completed, run `next`. */
  function Then(first: Outcome, next: Outcome): (r: Outcome)
    ensures r == Pass <==> first == Pass && next == Pass
    ensures first.Failed? ==> r == first
  {
    if first.Failed? then first else next
  }

  /** A call used as a statement: its value is dropped, its exception kept. */
  function Discard(call: Result<Obj>): (r: Outcome)
    ensures r == Pass <==> call.Ok?
    ensures call.Raised? ==> r == Failed(call.exc)
  {
    if call.Ok? then Pass else Failed(call.exc)
  }

  /**
   The objects the `for key, value in form_items` loop iterates over. A dict yields
   its `(key, value)` pairs; the `dict` type object has an unbound `items` that
   raises `TypeError` when called; other iterables are iterated as they are; a
   non-iterable schema yields nothing.
   */
  function FormItems(form: Obj): (r: Result<seq<Obj>>)
    ensures r.Raised? <==> form == Type(DictType)
    ensures r.Raised? ==> r.exc == TypeError
    ensures r.Ok? ==> forall i | 0 <= i < |r.value| :: Size(r.value[i]) <= Size(form)
    ensures r.Ok? && !Iterable(form) ==> r.value == []
    ensures r.Ok? && Iterable(form) ==> |r.value| == Length(form)
    ensures form.Dict? ==> r.Ok? && forall i | 0 <= i < |r.value| ::
              Unpack(r.value[i]) == Ok((Str(form.entries[i].0), form.entries[i].1))
    ensures form.List? || form.Tuple? ==> r == Ok(form.items)
    ensures form.Str? ==> r.Ok? && forall i | 0 <= i < |r.value| :: r.value[i] == Str([form.s[i]])
  {
    match form
    case Dict(es) =>
      EntryPairsAreSmaller(es);
      Ok(EntryPairs(es))
    case Type(DictType) => Raised(TypeError)
    case Str(s) => Ok(seq(|s|, i requires 0 <= i < |s| => Str([s[i]])))
    case List(xs) =>
      ElementsAreSmaller(xs);
      Ok(xs)
    case Tuple(xs) =>
      ElementsAreSmaller(xs);
      Ok(xs)
    case _ => Ok([])
  }

  /** `dict.items()`: each entry as the 2-tuple `(key, value)`. */
  function EntryPairs(es: seq<(string, Obj)>): seq<Obj>
  {
    seq(|es|, i requires 0 <= i < |es| => Tuple([Str(es[i].0), es[i].1]))
  }

  lemma EntryPairsAreSmaller(es: seq<(string, Obj)>)
    ensures forall i | 0 <= i < |es| :: Size(EntryPairs(es)[i]) < Size(Dict(es))
  {
    forall i | 0 <= i < |es|
      ensures Size(EntryPairs(es)[i]) < Size(Dict(es))
    {
      SizeOfEntriesBounds(es, i);
      var pair := [Str(es[i].0), es[i].1];
      assert SizeOfAll(pair) == Size(pair[0]) + SizeOfAll(pair[1..]);
      assert SizeOfAll(pair[1..]) == Size(es[i].1) + SizeOfAll(pair[2..]);
    }
  }

  lemma ElementsAreSmaller(xs: seq<Obj>)
    ensures forall i | 0 <= i < |xs| :: Size(xs[i]) < Size(List(xs))
    ensures forall i | 0 <= i < |xs| :: Size(xs[i]) < Size(Tuple(xs))
  {
    forall i | 0 <= i < |xs|
      ensures Size(xs[i]) < 1 + SizeOfAll(xs)
    {
      SizeOfAllBounds(xs, i);
    }
  }

  /**
   Lines 51-55, a key absent from the data: `None` must be an instance of the field
   schema; if that test raises `TypeError` (the schema is not a type), it is retried
   against the schema's own type.
   */
  function MissingKey(value: Obj): (r: Outcome)
    ensures r == Pass <==> IsInstance(None, value) == Ok(true) || value == None
    ensures r.Failed? ==> r.exc == AssertionError
  {
    match IsInstance(None, value)
    case Raised(TypeError) => Assert(IsInstance(None, Type(TypeOf(value))))
    case other => Assert(other)
  }

  /** `form[key][0]`: the element class the list branch checks against (line 62). */
  function ElementClass(form: Obj, key: Obj): (r: Result<Obj>)
    ensures Subscript(form, key).Raised? ==> r == Raised(Subscript(form, key).exc)
    ensures Subscript(form, key).Ok? && Subscript(form, key).value.List?
            ==> (r.Ok? <==> |Subscript(form, key).value.items| > 0)
    ensures r.Ok? && Subscript(form, key).value.List? ==> r.value == Subscript(form, key).value.items[0]
  {
    match Subscript(form, key)
    case Raised(e) => Raised(e)
    case Ok(fieldSchema) => Subscript(fieldSchema, Int(0))
  }

  /**
   Lines 61-62: `for item in items: assert isinstance(item, form[key][0])`, the class
   being looked up afresh for each item, and not at all when there is none.
   */
  function ListElements(form: Obj, key: Obj, items: seq<Obj>): (r: Outcome)
    decreases |items|
    ensures |items| == 0 ==> r == Pass
    ensures |items| > 0 && ElementClass(form, key).Raised? ==> r == Failed(ElementClass(form, key).exc)
    ensures r.Failed? && ElementClass(form, key).Ok? ==> r.exc == AssertionError || r.exc == TypeError
    ensures |items| > 0 && ElementClass(form, key).Ok?
            && !ElementClass(form, key).value.Type? && !ElementClass(form, key).value.Tuple?
            ==> r == Failed(TypeError)
  {
    if |items| == 0 then Pass
    else
      match ElementClass(form, key)
      case Raised(e) => Failed(e)
      case Ok(cls) => Then(Assert(IsInstance(items[0], cls)), ListElements(form, key, items[1..]))
  }

  /** Lines 51-65: the four-way check of one schema pair `(key, value)` against `data`. */
  function CheckField(rule: ListRule, form: Obj, key: Obj, value: Obj, data: Obj): (r: Outcome)
    decreases Size(value), 3
    ensures Contains(data, key).Raised? ==> r == Failed(TypeError)
    ensures Contains(data, key) == Ok(false)
            ==> r == MissingKey(value) && (r == Pass <==> IsInstance(None, value) == Ok(true) || value == None)
    ensures Contains(data, key) == Ok(true) && Subscript(data, key).Ok? && value.Type?
            ==> r == Assert(Ok(IsSubclass(TypeOf(Subscript(data, key).value), value.tag)))
    ensures Contains(data, key) == Ok(true) && Subscript(data, key).Raised?
            ==> r == Failed(Subscript(data, key).exc)
  {
    match Contains(data, key)
    case Raised(e) => Failed(e)
    case Ok(false) => MissingKey(value)
    case Ok(true) =>
      match Subscript(data, key)
      case Raised(e) => Failed(e)
      case Ok(field) =>
        if value.Dict? then
          Then(Assert(IsInstance(field, Type(DictType))), Discard(Match(rule, value, field)))
        else if value.List? then
          match Assert(IsInstance(field, Type(ListType)))
          case Failed(e) => Failed(e)
          case Pass => ListElements(form, key, if rule == SchemaItems then value.items else field.items)
        else
          Then(Assert(Contains(data, key)), Assert(IsInstance(field, value)))
  }

  /** Unpack one item of the schema into `key, value` and check that pair. */
  function CheckItem(rule: ListRule, form: Obj, item: Obj, data: Obj): (r: Outcome)
    decreases Size(item), 0
    ensures !Iterable(item) ==> r == Failed(TypeError)
    ensures Iterable(item) && Length(item) != 2 ==> r == Failed(ValueError)
  {
    match Unpack(item)
    case Raised(e) => Failed(e)
    case Ok((key, value)) => CheckPair(rule, form, key, value, data)
  }

  /**
   The loop body once line 50 has unpacked `key, value`. It is kept apart from
   `CheckItem` so that facts about the loop over items do not draw in the whole
   field check.
   */
  function CheckPair(rule: ListRule, form: Obj, key: Obj, value: Obj, data: Obj): (r: Outcome)
    decreases Size(value), 4
  {
    CheckField(rule, form, key, value, data)
  }

  /** Every item is no larger than the schema it came from. */
  predicate WithinSize(form: Obj, items: seq<Obj>)
  {
    forall j | 0 <= j < |items| :: Size(items[j]) <= Size(form)
  }

  /**
   An item that unpacks is checked as the field it unpacks to: `(item[0], item[1])`
   for a two-element list or tuple, in that order.
   */
  lemma CheckItemChecksPair(rule: ListRule, form: Obj, item: Obj, data: Obj)
    requires Unpack(item).Ok?
    ensures CheckItem(rule, form, item, data)
            == CheckField(rule, form, Unpack(item).value.0, Unpack(item).value.1, data)
    ensures (item.List? || item.Tuple?)
            ==> CheckItem(rule, form, item, data) == CheckField(rule, form, item.items[0], item.items[1], data)
  {
  }

  /** Lines 50-67 from the `i`-th schema item on. */
  function MatchItems(rule: ListRule, form: Obj, items: seq<Obj>, data: Obj, i: nat): (r: Result<Obj>)
    requires WithinSize(form, items)
    requires i <= |items|
    decreases Size(form), 1, |items| - i
    ensures r.Ok? ==> r.value == data
  {
    if i == |items| then Ok(data)
    else
      match CheckItem(rule, form, items[i], data)
      case Failed(e) => Raised(e)
      case Pass => MatchItems(rule, form, items, data, i + 1)
  }

  /** `_format_asserts(form, data)` */
  function Match(rule: ListRule, form: Obj, data: Obj): (r: Result<Obj>)
    decreases Size(form), 2
    ensures r.Ok? ==> r.value == data
    ensures !Iterable(form) && form != Type(DictType) ==> r == Ok(data)
    ensures form == Type(DictType) ==> r == Raised(TypeError)
  {
    match FormItems(form)
    case Raised(e) => Raised(e)
    case Ok(items) => MatchItems(rule, form, items, data, 0)
  }
}

=== FILE: matcher_examples.dfy ===
/**
 Worked cases of `_format_asserts` on small schemas and data: nested dicts, an
 absent key, and a list field, the last both as written and with the data's list
 walked instead.
 */
module MatcherExamples {
  import opened PyObjects
  import opened Builtins
  import opened Matcher
  import opened MatcherProperties

  /** A one-field dict schema raises what its only field check raises, or returns the data. */
  lemma OneFieldSchema(rule: ListRule, k: string, v: Obj, data: Obj)
    ensures Match(rule, Dict([(k, v)]), data)
            == (match CheckField(rule, Dict([(k, v)]), Str(k), v, data)
                case Pass => Ok(data)
                case Failed(e) => Raised(e))
  {
    var form := Dict([(k, v)]);
    var items := FormItems(form).value;
    assert CheckItem(rule, form, items[0], data) == CheckField(rule, form, Str(k), v, data);
    if CheckField(rule, form, Str(k), v, data) == Pass {
      assert MatchItems(rule, form, items, data, 1) == Ok(data);
    }
  }

  /** `{"b": int}` accepts `{"b": 5}` and rejects `{"b": "x"}`. */
  lemma FlatDictExamples(rule: ListRule)
    ensures Match(rule, Dict([("b", Type(IntType))]), Dict([("b", Int(5))])).Ok?
    ensures Match(rule, Dict([("b", Type(IntType))]), Dict([("b", Str("x"))])) == Raised(AssertionError)
  {
    IntFieldChecks(rule);
    OneFieldSchema(rule, "b", Type(IntType), Dict([("b", Int(5))]));
    OneFieldSchema(rule, "b", Type(IntType), Dict([("b", Str("x"))]));
  }

  /** The field `"b": int` admits `5` and rejects `"x"`. */
  lemma IntFieldChecks(rule: ListRule)
    ensures CheckField(rule, Dict([("b", Type(IntType))]), Str("b"), Type(IntType), Dict([("b", Int(5))])) == Pass
    ensures CheckField(rule, Dict([("b", Type(IntType))]), Str("b"), Type(IntType), Dict([("b", Str("x"))]))
            == Failed(AssertionError)
  {
    var inner := Dict([("b", Type(IntType))]);
    PlainField(rule, inner, "b", Type(IntType), [("b", Int(5))]);
    PlainField(rule, inner, "b", Type(IntType), [("b", Str("x"))]);
  }

  /** `{"a": {"b": int}}` accepts `{"a": {"b": 5}}` and rejects `{"a": {"b": "x"}}` and `{"a": 5}`. */
  lemma NestedDictExamples(rule: ListRule)
    ensures Match(rule, Dict([("a", Dict([("b", Type(IntType))]))]), Dict([("a", Dict([("b", Int(5))]))])).Ok?
    ensures Match(rule, Dict([("a", Dict([("b", Type(IntType))]))]), Dict([("a", Dict([("b", Str("x"))]))]))
            == Raised(AssertionError)
    ensures Match(rule, Dict([("a", Dict([("b", Type(IntType))]))]), Dict([("a", Int(5))]))
            == Raised(AssertionError)
  {
    var inner := Dict([("b", Type(IntType))]);
    var schema := Dict([("a", inner)]);
    FlatDictExamples(rule);
    var good := Dict([("b", Int(5))]);
    var bad := Dict([("b", Str("x"))]);
    OneFieldSchema(rule, "a", inner, Dict([("a", good)]));
    DictField(rule, schema, "a", inner, [("a", good)]);
    assert CheckField(rule, schema, Str("a"), inner, Dict([("a", good)])) == Pass;
    OneFieldSchema(rule, "a", inner, Dict([("a", bad)]));
    DictField(rule, schema, "a", inner, [("a", bad)]);
    assert CheckField(rule, schema, Str("a"), inner, Dict([("a", bad)])) == Failed(AssertionError);
    OneFieldSchema(rule, "a", inner, Dict([("a", Int(5))]));
    DictField(rule, schema, "a", inner, [("a", Int(5))]);
  }

  /**
   `{"a": int}` rejects `{}`; `{"a": type(None)}` and `{"a": None}` accept it; the
   example instance `{"a": 5}` rejects it.
   */
  lemma AbsentKeyExamples(rule: ListRule)
    ensures Match(rule, Dict([("a", Type(IntType))]), Dict([])) == Raised(AssertionError)
    ensures Match(rule, Dict([("a", Type(NoneType))]), Dict([])) == Ok(Dict([]))
    ensures Match(rule, Dict([("a", None)]), Dict([])) == Ok(Dict([]))
    ensures Match(rule, Dict([("a", Int(5))]), Dict([])) == Raised(AssertionError)
  {
    MissingKeyExamples();
    forall v: Obj
      ensures Match(rule, Dict([("a", v)]), Dict([]))
              == (match MissingKey(v) case Pass => Ok(Dict([])) case Failed(e) => Raised(e))
    {
      OneFieldSchema(rule, "a", v, Dict([]));
      AbsentKeyField(rule, Dict([("a", v)]), "a", v, []);
    }
  }

  /** As written, `{"items": [int]}` rejects even `{"items": [1, 2, 3]}`. */
  lemma ListFieldExampleAsWritten()
    ensures Match(SchemaItems, Dict([("items", List([Type(IntType)]))]),
                  Dict([("items", List([Int(1), Int(2), Int(3)]))]))
            == Raised(AssertionError)
  {
    var data := Dict([("items", List([Int(1), Int(2), Int(3)]))]);
    IntListFieldFailsAsWritten();
    OneFieldSchema(SchemaItems, "items", List([Type(IntType)]), data);
  }

  /** The field check behind the example above. */
  lemma IntListFieldFailsAsWritten()
    ensures CheckField(SchemaItems, Dict([("items", List([Type(IntType)]))]), Str("items"), List([Type(IntType)]),
                       Dict([("items", List([Int(1), Int(2), Int(3)]))]))
            == Failed(AssertionError)
  {
    ListOfTypeRejectsEveryList([("items", List([Type(IntType)]))], "items", IntType, [],
                               Dict([("items", List([Int(1), Int(2), Int(3)]))]));
  }

  /** Walking the data's list, `{"items": [int]}` accepts `{"items": [1, 2, 3]}`. */
  lemma ListFieldExampleIntendedAccepts()
    ensures Match(DataItems, Dict([("items", List([Type(IntType)]))]),
                  Dict([("items", List([Int(1), Int(2), Int(3)]))])).Ok?
  {
    var data := Dict([("items", List([Int(1), Int(2), Int(3)]))]);
    IntListFieldPasses();
    OneFieldSchema(DataItems, "items", List([Type(IntType)]), data);
  }

  /** The field check behind the example above. */
  lemma IntListFieldPasses()
    ensures CheckField(DataItems, Dict([("items", List([Type(IntType)]))]), Str("items"), List([Type(IntType)]),
                       Dict([("items", List([Int(1), Int(2), Int(3)]))]))
            == Pass
  {
    var ints := [Int(1), Int(2), Int(3)];
    ListFieldChecksDataElements([("items", List([Type(IntType)]))], "items", IntType, [], Dict([("items", List(ints))]), ints);
  }

  /** Walking the data's list, `{"items": [int]}` rejects `{"items": [1, "x"]}`. */
  lemma ListFieldExampleIntendedRejects()
    ensures Match(DataItems, Dict([("items", List([Type(IntType)]))]),
                  Dict([("items", List([Int(1), Str("x")]))]))
            == Raised(AssertionError)
  {
    var data := Dict([("items", List([Int(1), Str("x")]))]);
    MixedListFieldFails();
    OneFieldSchema(DataItems, "items", List([Type(IntType)]), data);
  }

  /** The field check behind the example above. */
  lemma MixedListFieldFails()
    ensures CheckField(DataItems, Dict([("items", List([Type(IntType)]))]), Str("items"), List([Type(IntType)]),
                       Dict([("items", List([Int(1), Str("x")]))]))
            == Failed(AssertionError)
  {
    var mixed := [Int(1), Str("x")];
    ListFieldChecksDataElements([("items", List([Type(IntType)]))], "items", IntType, [], Dict([("items", List(mixed))]), mixed);
    assert !IsSubclass(TypeOf(mixed[1]), IntType);
  }

  /**
   A list of pairs is read as the schema's pairs: `[["a", int]]` accepts `{"a": 1}`
   and rejects `{"a": "x"}`, the first element of each pair being the key.
   */
  lemma PairListSchemaExamples(rule: ListRule)
    ensures Match(rule, List([List([Str("a"), Type(IntType)])]), Dict([("a", Int(1))])).Ok?
    ensures Match(rule, List([List([Str("a"), Type(IntType)])]), Dict([("a", Str("x"))])) == Raised(AssertionError)
  {
    var form := List([List([Str("a"), Type(IntType)])]);
    var good := Dict([("a", Int(1))]);
    var bad := Dict([("a", Str("x"))]);
    assert CheckItem(rule, form, form.items[0], good) == CheckField(rule, form, Str("a"), Type(IntType), good);
    assert CheckField(rule, form, Str("a"), Type(IntType), good) == Pass;
    MatchPassesIffEveryItemPasses(rule, form, good);
    assert CheckItem(rule, form, form.items[0], bad) == CheckField(rule, form, Str("a"), Type(IntType), bad);
    assert CheckField(rule, form, Str("a"), Type(IntType), bad) == Failed(AssertionError);
    FirstFailingItemDecides(rule, form, bad, 0);
  }

  /** `{"a": (int, None)}` accepts `{"a": 1}`: the tuple answers at `int` and never reaches `None`. */
  lemma TupleFieldExample(rule: ListRule)
    ensures Match(rule, Dict([("a", Tuple([Type(IntType), None]))]), Dict([("a", Int(1))])).Ok?
  {
    var v := Tuple([Type(IntType), None]);
    OneFieldSchema(rule, "a", v, Dict([("a", Int(1))]));
    assert IsInstance(Int(1), v) == Ok(true);
    PlainField(rule, Dict([("a", v)]), "a", v, [("a", Int(1))]);
  }

  /**
   `{"a": int}` against the string `"abc"` or the list `["a"]`: `"a" in data` holds,
   and it is `data["a"]` that raises `TypeError`.
   */
  lemma NonDictDataExamples(rule: ListRule)
    ensures Match(rule, Dict([("a", Type(IntType))]), Str("abc")) == Raised(TypeError)
    ensures Match(rule, Dict([("a", Type(IntType))]), List([Str("a")])) == Raised(TypeError)
  {
    assert IsSubstring("a", "abc");
    OneFieldSchema(rule, "a", Type(IntType), Str("abc"));
    assert PyEq(Str("a"), Str("a"));
    OneFieldSchema(rule, "a", Type(IntType), List([Str("a")]));
  }

  /** A plain type annotation is ignored, except `dict`, whose unbound `items` raises. */
  lemma TypeAnnotationExamples(rule: ListRule, data: Obj)
    ensures Match(rule, Type(IntType), data) == Ok(data)
    ensures Match(rule, Type(ListType), data) == Ok(data)
    ensures Match(rule, Type(DictType), data) == Raised(TypeError)
  {
  }
}

=== FILE: matcher_properties.dfy ===
/**
 What `_format_asserts` guarantees, stated over the model in `Matcher`: the
 schema's pairs are checked one by one and the first failure decides the outcome;
 each field follows one of four rules; and the list rule, as written, looks at the
 schema's list and never at the data's.
 */
module MatcherProperties {
  import opened PyObjects
  import opened Builtins
  import opened Matcher

  // ---------------------------------------------------------------------------
  // Fail-fast iteration (lines 50-65)
  // ---------------------------------------------------------------------------

  lemma MatchItemsPassIffAllPass(rule: ListRule, form: Obj, items: seq<Obj>, data: Obj, i: nat)
    requires WithinSize(form, items)
    requires i <= |items|
    ensures MatchItems(rule, form, items, data, i).Ok?
            <==> forall j | i <= j < |items| :: CheckItem(rule, form, items[j], data) == Pass
  {
    var outcomes := ItemOutcomes(rule, form, items, data);
    MatchItemsFollowsOutcomes(rule, form, items, data, i);
    AllPassFromIffAll(outcomes, i);
  }

  /** The outcome of checking each item on its own. */
  function ItemOutcomes(rule: ListRule, form: Obj, items: seq<Obj>, data: Obj): (os: seq<Outcome>)
    ensures |os| == |items|
    ensures forall j | 0 <= j < |items| :: os[j] == CheckItem(rule, form, items[j], data)
  {
    seq(|items|, j requires 0 <= j < |items| => CheckItem(rule, form, items[j], data))
  }

  /** Every outcome from the `i`-th on is `Pass`, stated one outcome at a time. */
  predicate AllPassFrom(os: seq<Outcome>, i: nat)
    decreases |os| - i
  {
    i >= |os| || (os[i] == Pass && AllPassFrom(os, i + 1))
  }

  lemma {:induction false} AllPassFromIffAll(os: seq<Outcome>, i: nat)
    requires i <= |os|
    ensures AllPassFrom(os, i) <==> forall j | i <= j < |os| :: os[j] == Pass
    decreases |os| - i
  {
    if i < |os| {
      AllPassFromIffAll(os, i + 1);
    }
  }

  lemma {:induction false} MatchItemsFollowsOutcomes(rule: ListRule, form: Obj, items: seq<Obj>, data: Obj, i: nat)
    requires WithinSize(form, items)
    requires i <= |items|
    ensures MatchItems(rule, form, items, data, i).Ok? <==> AllPassFrom(ItemOutcomes(rule, form, items, data), i)
    decreases |items| - i
  {
    if i < |items| {
      MatchItemsFollowsOutcomes(rule, form, items, data, i + 1);
      MatchItemsStep(rule, form, items, data, i);
    }
  }

  /** One turn of the loop: a passing item hands over to the next, a failing one raises. */
  lemma MatchItemsStep(rule: ListRule, form: Obj, items: seq<Obj>, data: Obj, i: nat)
    requires WithinSize(form, items)
    requires i < |items|
    ensures CheckItem(rule, form, items[i], data) == Pass
            ==> MatchItems(rule, form, items, data, i) == MatchItems(rule, form, items, data, i + 1)
    ensures CheckItem(rule, form, items[i], data).Failed?
            ==> MatchItems(rule, form, items, data, i) == Raised(CheckItem(rule, form, items[i], data).exc)
  {
  }

  lemma {:induction false} MatchItemsStopsAtFirstFailure(rule: ListRule, form: Obj, items: seq<Obj>, data: Obj, i: nat, j: nat)
    requires WithinSize(form, items)
    requires i <= j < |items|
    requires forall k | i <= k < j :: CheckItem(rule, form, items[k], data) == Pass
    requires CheckItem(rule, form, items[j], data).Failed?
    ensures MatchItems(rule, form, items, data, i) == Raised(CheckItem(rule, form, items[j], data).exc)
    decreases j - i
  {
    MatchItemsStopsAtFailedOutcome(rule, form, items, data, i, j);
  }

  lemma {:induction false} MatchItemsStopsAtFailedOutcome(rule: ListRule, form: Obj, items: seq<Obj>, data: Obj, i: nat, j: nat)
    requires WithinSize(form, items)
    requires i <= j < |items|
    requires forall k | i <= k < j :: ItemOutcomes(rule, form, items, data)[k] == Pass
    requires ItemOutcomes(rule, form, items, data)[j].Failed?
    ensures MatchItems(rule, form, items, data, i) == Raised(ItemOutcomes(rule, form, items, data)[j].exc)
    decreases j - i
  {
    MatchItemsOutcomeStep(rule, form, items, data, i);
    if i < j {
      MatchItemsStopsAtFailedOutcome(rule, form, items, data, i + 1, j);
    }
  }

  /** One turn of the loop, stated on the item's recorded outcome. */
  lemma MatchItemsOutcomeStep(rule: ListRule, form: Obj, items: seq<Obj>, data: Obj, i: nat)
    requires WithinSize(form, items)
    requires i < |items|
    ensures ItemOutcomes(rule, form, items, data)[i] == Pass
            ==> MatchItems(rule, form, items, data, i) == MatchItems(rule, form, items, data, i + 1)
    ensures ItemOutcomes(rule, form, items, data)[i].Failed?
            ==> MatchItems(rule, form, items, data, i) == Raised(ItemOutcomes(rule, form, items, data)[i].exc)
  {
    MatchItemsStep(rule, form, items, data, i);
  }

  /** The match succeeds exactly when every item of the schema, unpacked and checked, passes. */
  lemma MatchPassesIffEveryItemPasses(rule: ListRule, form: Obj, data: Obj)
    requires FormItems(form).Ok?
    ensures Match(rule, form, data) == Ok(data)
            <==> forall j | 0 <= j < |FormItems(form).value| ::
                   CheckItem(rule, form, FormItems(form).value[j], data) == Pass
  {
    MatchItemsPassIffAllPass(rule, form, FormItems(form).value, data, 0);
  }

  /**
   Errors are not accumulated: the first item that fails, in the schema's own
   order, decides the exception the whole match raises.
   */
  lemma FirstFailingItemDecides(rule: ListRule, form: Obj, data: Obj, j: nat)
    requires FormItems(form).Ok? && j < |FormItems(form).value|
    requires forall k | 0 <= k < j :: CheckItem(rule, form, FormItems(form).value[k], data) == Pass
    requires CheckItem(rule, form, FormItems(form).value[j], data).Failed?
    ensures Match(rule, form, data) == Raised(CheckItem(rule, form, FormItems(form).value[j], data).exc)
  {
    MatchItemsStopsAtFirstFailure(rule, form, FormItems(form).value, data, 0, j);
  }

  /** For a dict schema the items are its entries: each `(key, value)` is checked as a field. */
  lemma DictSchemaChecksEveryField(rule: ListRule, es: seq<(string, Obj)>, data: Obj)
    ensures Match(rule, Dict(es), data) == Ok(data)
            <==> forall j | 0 <= j < |es| :: CheckField(rule, Dict(es), Str(es[j].0), es[j].1, data) == Pass
  {
    var items := FormItems(Dict(es)).value;
    MatchPassesIffEveryItemPasses(rule, Dict(es), data);
    assert forall j | 0 <= j < |es| ::
      CheckItem(rule, Dict(es), items[j], data) == CheckField(rule, Dict(es), Str(es[j].0), es[j].1, data);
  }

  /**
   For a dict schema, the first entry whose field check fails, in insertion
   order, decides the exception; later entries are never looked at.
   */
  lemma DictSchemaStopsAtFirstFailingField(rule: ListRule, es: seq<(string, Obj)>, data: Obj, j: nat)
    requires j < |es|
    requires forall k | 0 <= k < j :: CheckField(rule, Dict(es), Str(es[k].0), es[k].1, data) == Pass
    requires CheckField(rule, Dict(es), Str(es[j].0), es[j].1, data).Failed?
    ensures Match(rule, Dict(es), data) == Raised(CheckField(rule, Dict(es), Str(es[j].0), es[j].1, data).exc)
  {
    var items := FormItems(Dict(es)).value;
    assert forall k | 0 <= k < |es| ::
      CheckItem(rule, Dict(es), items[k], data) == CheckField(rule, Dict(es), Str(es[k].0), es[k].1, data);
    FirstFailingItemDecides(rule, Dict(es), data, j);
  }

  // ---------------------------------------------------------------------------
  // Schemas that are not mappings (lines 40-47)
  // ---------------------------------------------------------------------------

  /**
   A schema that is iterable but not a mapping is unpacked item by item: a
   non-empty string fails with `ValueError` (its items are single characters), and
   a list or tuple whose first item is not iterable, such as the top-level schema
   `[int]`, fails with `TypeError`.
   */
  lemma PairlessSchemasRaise(rule: ListRule, form: Obj, data: Obj)
    ensures form.Str? && |form.s| > 0 ==> Match(rule, form, data) == Raised(ValueError)
    ensures (form.List? || form.Tuple?) && |form.items| > 0 && !Iterable(form.items[0])
            ==> Match(rule, form, data) == Raised(TypeError)
  {
    if form.Str? && |form.s| > 0 {
      FirstFailingItemDecides(rule, form, data, 0);
    }
    if (form.List? || form.Tuple?) && |form.items| > 0 && !Iterable(form.items[0]) {
      FirstFailingItemDecides(rule, form, data, 0);
    }
  }

  // ---------------------------------------------------------------------------
  // The four field rules against dict data (lines 51-65)
  // ---------------------------------------------------------------------------

  /** The value a dict holds for a key it contains. */
  function FieldOf(des: seq<(string, Obj)>, k: string): Obj
    requires KeyIndex(des, k) < |des|
  {
    des[KeyIndex(des, k)].1
  }

  /** A key absent from a dict follows the missing-key rule, whatever the field schema. */
  lemma AbsentKeyField(rule: ListRule, form: Obj, k: string, value: Obj, des: seq<(string, Obj)>)
    requires KeyIndex(des, k) == |des|
    ensures CheckField(rule, form, Str(k), value, Dict(des)) == MissingKey(value)
  {
  }

  /**
   A dict field schema needs the data's value to be a dict, and then passes
   exactly when the nested match does.
   */
  lemma DictField(rule: ListRule, form: Obj, k: string, value: Obj, des: seq<(string, Obj)>)
    requires KeyIndex(des, k) < |des| && value.Dict?
    ensures CheckField(rule, form, Str(k), value, Dict(des))
            == (if FieldOf(des, k).Dict? then Discard(Match(rule, value, FieldOf(des, k)))
                else Failed(AssertionError))
  {
  }

  /**
   A list field schema needs the data's value to be a list, and then runs the
   element loop: over the schema's list as written, over the data's list otherwise.
   */
  lemma ListField(rule: ListRule, form: Obj, k: string, value: Obj, des: seq<(string, Obj)>)
    requires KeyIndex(des, k) < |des| && value.List?
    ensures CheckField(rule, form, Str(k), value, Dict(des))
            == (if !FieldOf(des, k).List? then Failed(AssertionError)
                else if rule == SchemaItems then ListElements(form, Str(k), value.items)
                else ListElements(form, Str(k), FieldOf(des, k).items))
  {
  }

  /**
   Any other field schema passes exactly when the present value is an instance of
   it; a type object can only fail by assertion, while a non-type raises `TypeError`.
   */
  lemma PlainField(rule: ListRule, form: Obj, k: string, value: Obj, des: seq<(string, Obj)>)
    requires KeyIndex(des, k) < |des| && !value.Dict? && !value.List?
    ensures CheckField(rule, form, Str(k), value, Dict(des)) == Pass
            <==> IsInstance(FieldOf(des, k), value) == Ok(true)
    ensures value.Type? && CheckField(rule, form, Str(k), value, Dict(des)) != Pass
            ==> CheckField(rule, form, Str(k), value, Dict(des)) == Failed(AssertionError)
    ensures !value.Type? && !value.Tuple?
            ==> CheckField(rule, form, Str(k), value, Dict(des)) == Failed(TypeError)
  {
  }

  /**
   The missing-key rule in examples: `int` rejects an absent key, `None` and
   `type(None)` accept it, an example instance such as `5` rejects it, and the
   tuple `(int, type(None))` accepts it.
   */
  lemma MissingKeyExamples()
    ensures MissingKey(Type(IntType)) == Failed(AssertionError)
    ensures MissingKey(None) == Pass
    ensures MissingKey(Type(NoneType)) == Pass
    ensures MissingKey(Int(5)) == Failed(AssertionError)
    ensures MissingKey(Tuple([Type(IntType), Type(NoneType)])) == Pass
  {
    TupleOfTypesIsUnion(None, [Type(IntType), Type(NoneType)]);
    assert IsSubclass(TypeOf(None), [Type(IntType), Type(NoneType)][1].tag);
  }

  // ---------------------------------------------------------------------------
  // The list rule (lines 59-62)
  // ---------------------------------------------------------------------------

  /**
   The element loop passes exactly when it has nothing to walk, or the class
   `form[key][0]` can be found and every walked item is an instance of it.
   */
  lemma {:induction false} ListElementsPassIff(form: Obj, key: Obj, items: seq<Obj>)
    ensures ListElements(form, key, items) == Pass
            <==> |items| == 0
                 || (ElementClass(form, key).Ok?
                     && forall j | 0 <= j < |items| :: IsInstance(items[j], ElementClass(form, key).value) == Ok(true))
    decreases |items|
  {
    if |items| > 0 {
      ListElementsPassIff(form, key, items[1..]);
      if ElementClass(form, key).Ok? {
        assert forall j | 1 <= j < |items| :: items[j] == items[1..][j - 1];
      }
    }
  }

  /** When the element class is a type object, the loop can only fail by assertion. */
  lemma {:induction false} ListElementsFailWithAssertion(form: Obj, key: Obj, items: seq<Obj>)
    requires ElementClass(form, key).Ok? && ElementClass(form, key).value.Type?
    ensures ListElements(form, key, items).Failed? ==> ListElements(form, key, items).exc == AssertionError
    decreases |items|
  {
    if |items| > 0 {
      ListElementsFailWithAssertion(form, key, items[1..]);
    }
  }

  /**
   As written, the list rule never reads the data's list: once `data[key]` is a
   list, two data values give the same outcome whatever their lists hold.
   */
  lemma ListFieldIgnoresDataElements(form: Obj, key: Obj, vs: seq<Obj>, data1: Obj, data2: Obj)
    requires Contains(data1, key) == Ok(true) && Contains(data2, key) == Ok(true)
    requires Subscript(data1, key).Ok? && Subscript(data1, key).value.List?
    requires Subscript(data2, key).Ok? && Subscript(data2, key).value.List?
    ensures CheckField(SchemaItems, form, key, List(vs), data1)
            == CheckField(SchemaItems, form, key, List(vs), data2)
            == ListElements(form, key, vs)
  {
  }

  /**
   As written, a list schema whose first element is a type `t` that type objects
   are not instances of (`[int]`, `[str]`, ...) rejects every list: the loop asks
   whether the type object `t` is itself an instance of `t`.
   */
  lemma ListOfTypeRejectsEveryList(es: seq<(string, Obj)>, k: string, t: TypeTag, rest: seq<Obj>, data: Obj)
    requires KeyIndex(es, k) < |es| && es[KeyIndex(es, k)].1 == List([Type(t)] + rest)
    requires !IsSubclass(TypeType, t)
    requires Contains(data, Str(k)) == Ok(true)
    requires Subscript(data, Str(k)).Ok? && Subscript(data, Str(k)).value.List?
    ensures CheckField(SchemaItems, Dict(es), Str(k), List([Type(t)] + rest), data) == Failed(AssertionError)
  {
    assert ElementClass(Dict(es), Str(k)) == Ok(Type(t));
  }

  /**
   With the data's list walked instead, a list schema `[t]` accepts a list exactly
   when each of its elements is an instance of `t`.
   */
  lemma ListFieldChecksDataElements(es: seq<(string, Obj)>, k: string, t: TypeTag, rest: seq<Obj>, data: Obj, ds: seq<Obj>)
    requires KeyIndex(es, k) < |es| && es[KeyIndex(es, k)].1 == List([Type(t)] + rest)
    requires Contains(data, Str(k)) == Ok(true)
    requires Subscript(data, Str(k)) == Ok(List(ds))
    ensures CheckField(DataItems, Dict(es), Str(k), List([Type(t)] + rest), data)
            == if forall j | 0 <= j < |ds| :: IsSubclass(TypeOf(ds[j]), t) then Pass
               else Failed(AssertionError)
  {
    assert ElementClass(Dict(es), Str(k)) == Ok(Type(t));
    ListElementsPassIff(Dict(es), Str(k), ds);
    ListElementsFailWithAssertion(Dict(es), Str(k), ds);
  }
}

=== FILE: pyobjects.dfy ===
/**
 The slice of Python's object world that the schema validator touches.

 Schemas and data are the same kind of thing in Python: an annotation such as
 `{"id": int, "tags": [str]}` is an ordinary dict whose values are type objects
 or lists, and the matcher hands schema objects to `isinstance` just as it hands
 data objects to it. So one datatype `Obj` stands for both.
 */
module PyObjects {

  /** The built-in classes the model knows about (their type objects). */
  datatype TypeTag =
    | NoneType
    | BoolType
    | IntType
    | StrType
    | ListType
    | TupleType
    | DictType
    | TypeType
    | ObjectType

  /** A Python object. Dicts keep insertion order and have string keys. */
  datatype Obj =
    | None
    | Bool(b: bool)
    | Int(i: int)
    | Str(s: string)
    | List(items: seq<Obj>)
    | Tuple(items: seq<Obj>)
    | Dict(entries: seq<(string, Obj)>)
    | Type(tag: TypeTag)

  /** The Python exceptions the validator can raise or let through. */
  datatype Exception =
    | AssertionError
    | TypeError
    | ValueError
    | KeyError
    | IndexError

  /** An expression's result: a value, or the exception it raised. */
  datatype Result<+T> = Ok(value: T) | Raised(exc: Exception)

  /** A statement's result: it completed, or it raised. */
  datatype Outcome = Pass | Failed(exc: Exception)

  /** `assert cond`, where evaluating `cond` may itself raise. */
  function Assert(cond: Result<bool>): (r: Outcome)
    ensures r == Pass <==> cond == Ok(true)
    ensures cond.Raised? ==> r == Failed(cond.exc)
    ensures cond == Ok(false) ==> r == Failed(AssertionError)
  {
    match cond
    case Ok(b) => if b then Pass else Failed(AssertionError)
    case Raised(e) => Failed(e)
  }

  /**
   A measure of an object's nesting, used for termination. A string counts its
   characters, and a dict entry counts as the 2-tuple `(key, value)` that
   `dict.items()` yields for it.
   */
  function Size(o: Obj): (n: nat)
    ensures n >= 1
  {
    match o
    case Str(s) => 1 + |s|
    case List(xs) => 1 + SizeOfAll(xs)
    case Tuple(xs) => 1 + SizeOfAll(xs)
    case Dict(es) => 1 + SizeOfEntries(es)
    case _ => 1
  }

  function SizeOfAll(xs: seq<Obj>): nat
  {
    if |xs| == 0 then 0 else Size(xs[0]) + SizeOfAll(xs[1..])
  }

  function SizeOfEntries(es: seq<(string, Obj)>): nat
  {
    if |es| == 0 then 0 else EntrySize(es[0]) + SizeOfEntries(es[1..])
  }

  /** Size of the pair `(k, v)` as the tuple `Tuple([Str(k), v])`. */
  function EntrySize(e: (string, Obj)): nat
  {
    1 + (1 + |e.0|) + Size(e.1)
  }

  lemma {:induction false} SizeOfAllBounds(xs: seq<Obj>, i: int)
    requires 0 <= i < |xs|
    ensures Size(xs[i]) < 1 + SizeOfAll(xs)
    decreases i
  {
    if i > 0 {
      SizeOfAllBounds(xs[1..], i - 1);
    }
  }

  lemma {:induction false} SizeOfEntriesBounds(es: seq<(string, Obj)>, i: int)
    requires 0 <= i < |es|
    ensures EntrySize(es[i]) < 1 + SizeOfEntries(es)
    decreases i
  {
    if i > 0 {
      SizeOfEntriesBounds(es[1..], i - 1);
    }
  }
}
